=== FILE: README.md ===
# yt-extractor: the stream-extraction decision logic in Dafny

This project models the orchestration logic of `YoutubeJExtractor`, which extracts stream descriptors for a video from the platform's watch page. The logic runs in a fixed order:

1. Recover the player response embedded in the page. Three inline-assignment conventions are tried in order, with an "unavailable" banner as the fallback diagnosis.
2. Apply the playability gate.
3. Decide from the first adaptive format whether the streams carry encrypted signatures.
4. If they do, replace every cipher's signature by its decryption.
5. Split the adaptive formats into audio-only and video-only lists.

The model also covers the two public URL accessors built on `extract`.

The model is purely functional. Java `null` is `Option` for the fields the logic reads. The exceptions the code throws are `Failure` values. That includes the unchecked `NullPointerException` and `IndexOutOfBoundsException` raised when one of those fields or lists is absent; the two cases listed under "## Left out" are the exception. The code the extractor calls but does not contain is passed in as the fields of `Records.Collaborators`:

- the regex engine (`find`);
- the tolerant JSON decoder (`decode`);
- URL decoding (`urlDecode`);
- locating the player script and its decrypt function (`playerCode`);
- the signature interpreter (`decrypt`).

Modules, leaves first:

- `Failures`: `Option`, `Failure` and `Result`.
- `Strings`: Java's `contains` and `replace`.
- `Seqs`: order-preserving selection, the reference for the partition.
- `Records`: `Cipher`, stream descriptors, the player response and the collaborators.
- `Playability`, `CipherDetection`, `ConfigExtraction`, `Decryption` and `Partition`: one module per rule.
- `Extractor`: `extract`, `getUrl` and `getUrlForAndroidEmbeddedPlayer`.

Two facts about `YoutubeJExtractor` shape the model:

- It never appends the decrypted signature to a URL. The decryption pass only stores the decrypted signature back into the cipher, so no URL reconstruction is modelled.
- For live content without adaptive formats, cipher detection answers "not ciphered" and extraction goes on to the partition. If the adaptive-format list is absent, the partition dereferences it and throws (line 131). `Extractor.Extract` models this as written. `Extractor.ExtractCorrected` reads the absent list as empty; see "## Findings".

## Model

| member | source | states |
|---|---|---|
| Records.SetS | ytube-extractor/src/main/java/com/raka/ytube_extractor/models/youtube/playerResponse/Cipher.java:23-25 | storing a signature replaces `s` and keeps `sp` and `url` |
| Records.GetAfterSet | ytube-extractor/src/main/java/com/raka/ytube_extractor/models/youtube/playerResponse/Cipher.java:19-25 | reading back a stored signature yields its URL-decoding |
| Playability.IsVideoUnavailable | ytube-extractor/src/main/java/com/raka/ytube_extractor/YoutubeJExtractor.java:118-124 | unavailable exactly when a reason is present and the status is `ERROR` or the reason is `Video unavailable`; a missing reason means available; a missing status object, or a missing status beside a reason, throws a null dereference |
| Playability.ErrorWithoutReasonIsAvailable | ytube-extractor/src/main/java/com/raka/ytube_extractor/YoutubeJExtractor.java:120-123 | an `ERROR` status with no reason is still available |
| Playability.SentinelReasonIsUnavailable | ytube-extractor/src/main/java/com/raka/ytube_extractor/YoutubeJExtractor.java:121-122 | the `Video unavailable` reason makes the video unavailable whatever the status says |
| CipherDetection.StreamsAreCiphered | ytube-extractor/src/main/java/com/raka/ytube_extractor/YoutubeJExtractor.java:273-292 | missing streaming data fails with its own message; missing video details throw; live content with an absent or empty adaptive list is not ciphered; otherwise an absent or empty list fails with the second message; a non-empty list is ciphered exactly when its first entry has a cipher |
| CipherDetection.OnlyFirstFormatDecides | ytube-extractor/src/main/java/com/raka/ytube_extractor/YoutubeJExtractor.java:274-288 | replacing every adaptive format after the first never changes the verdict |
| ConfigExtraction.MatchWithPatterns | ytube-extractor/src/main/java/com/raka/ytube_extractor/YoutubeJExtractor.java:240 | yields a capture exactly when some pattern matches, and then the capture of the earliest matching pattern |
| ConfigExtraction.ExtractYoutubePlayerConfig | ytube-extractor/src/main/java/com/raka/ytube_extractor/YoutubeJExtractor.java:234-251 | the decoded capture of the current convention if it matches, else of the first legacy one, else of the second; fails exactly when none matches, with an extraction failure whose message starts with the fixed prefix and contains the video id; when the banner pattern matches it is exactly the prefix, the video id, `, reason: ` and the banner text, and otherwise the prefix plus the video id alone |
| Partition.PartitionFormats | ytube-extractor/src/main/java/com/raka/ytube_extractor/YoutubeJExtractor.java:131-143 | the single pass succeeds exactly when no entry with a duration lacks a mime type; its audio list is the in-order selection of entries with a duration whose mime type contains `audio`; its video list is the selection of those whose mime type contains `video` but not `audio` |
| Partition.SortAdaptiveStreamsByTypeAsWritten | ytube-extractor/src/main/java/com/raka/ytube_extractor/YoutubeJExtractor.java:127-146 | an absent adaptive list throws a null dereference; otherwise it agrees with the corrected partition |
| Partition.SortAdaptiveStreamsByType | ytube-extractor/src/main/java/com/raka/ytube_extractor/YoutubeJExtractor.java:127-146 | fills the audio and video lists with those selections of the adaptive formats, an absent list read as empty, and leaves the adaptive and muxed lists unchanged |
| Partition.PartitionSound | ytube-extractor/src/main/java/com/raka/ytube_extractor/YoutubeJExtractor.java:133-139 | every kept entry comes from the input, has a duration and a mime type of its kind; no entry is in both lists; each list is a subsequence of the input |
| Partition.PartitionCounts | ytube-extractor/src/main/java/com/raka/ytube_extractor/YoutubeJExtractor.java:131-143 | audio, video and dropped entries together are exactly the input as a multiset; audio plus video never outnumber the input, and equal it exactly when every entry is kept as audio or video |
| Decryption.DecryptFormat | ytube-extractor/src/main/java/com/raka/ytube_extractor/YoutubeJExtractor.java:303-306 | a descriptor without a cipher throws; an interpreter failure is passed on; on success only the cipher's `s` changes, to the decryption of the URL-decoded old `s` |
| Decryption.DecryptFormats | ytube-extractor/src/main/java/com/raka/ytube_extractor/YoutubeJExtractor.java:302-307 | succeeds exactly when every descriptor decrypts, keeping the length and replacing each signature; otherwise fails with the failure of the first descriptor that fails |
| Decryption.DecryptYoutubeStreams | ytube-extractor/src/main/java/com/raka/ytube_extractor/YoutubeJExtractor.java:294-314 | a player-code failure comes before any list is touched; an absent adaptive list throws; the first failing adaptive descriptor's failure comes out before the muxed list is read, then an absent muxed list throws, then the first failing muxed descriptor's failure comes out; on success both lists keep their lengths, every adaptive and then every muxed signature is replaced, and nothing else in the configuration changes |
| Extractor.UnavailableFailure | ytube-extractor/src/main/java/com/raka/ytube_extractor/YoutubeJExtractor.java:92-96 | an unavailable video yields `VideoIsUnavailable` with the fixed prefix followed by the error-screen reason, or a null dereference when that reason cannot be reached |
| Extractor.CatchSignatureFailure | ytube-extractor/src/main/java/com/raka/ytube_extractor/YoutubeJExtractor.java:102-104 | a success stays a success and a failure stays a failure, and no signature failure gets past the catch; a signature failure leaves as an extraction failure caused by it, and every other outcome leaves unchanged |
| Extractor.DecryptionKeepsSortOutcome | ytube-extractor/src/main/java/com/raka/ytube_extractor/YoutubeJExtractor.java:97-101 | after a successful decryption the partition fails exactly when it would have failed on the undecrypted streams |
| Extractor.WrapSignatureFailure | ytube-extractor/src/main/java/com/raka/ytube_extractor/YoutubeJExtractor.java:102-104 | a signature failure becomes an extraction failure caused by it; any other failure passes unchanged |
| Extractor.Extract | ytube-extractor/src/main/java/com/raka/ytube_extractor/YoutubeJExtractor.java:87-106 | no signature failure escapes. Configuration, gate and detection failures pass out unchanged; a decryption failure passes out wrapped; an unavailable video fails with the unavailability failure. Extraction succeeds exactly when the gate says available, detection succeeds, decryption succeeds when the streams are ciphered, and the partition as written succeeds; when only the partition fails, the failure is a null dereference. Only the streaming data changes. Without a cipher the stream lists are untouched; with one, every adaptive and muxed signature is replaced. A successful result is always partitioned |
| Extractor.ExtractCorrected | ytube-extractor/src/main/java/com/raka/ytube_extractor/YoutubeJExtractor.java:87-106 | it agrees with `Extract` except for an available video whose streams are reported as not ciphered and whose adaptive-format list is absent; there `Extract` throws a null dereference and this one succeeds. An available video whose streams are not ciphered and that has no adaptive-format list is extracted, with empty audio and video lists and nothing else changed, where `Extract` throws a null dereference. A successful result is always partitioned |
| Extractor.GetUrl | ytube-extractor/src/main/java/com/raka/ytube_extractor/YoutubeJExtractor.java:113-116 | the first muxed stream's URL, possibly absent; an absent muxed list is a null dereference, an empty one an index failure, and extraction failures pass through |
| Extractor.GetUrlForAndroidEmbeddedPlayer | ytube-extractor/src/main/java/com/raka/ytube_extractor/YoutubeJExtractor.java:108-111 | an absent URL throws; otherwise the result is the URL with every `c=WEB` rewritten to `c=ANDROID_EMBEDDED_PLAYER`; the result never contains `c=WEB`, and a URL without it is returned unchanged |
| Extractor.UnavailableSkipsDecryption | ytube-extractor/src/main/java/com/raka/ytube_extractor/YoutubeJExtractor.java:92-97 | for an unavailable video the outcome is a failure and does not depend on the player code or the signature interpreter |
| Extractor.PlainStreamsSkipDecryption | ytube-extractor/src/main/java/com/raka/ytube_extractor/YoutubeJExtractor.java:97-100 | for streams that are not ciphered the outcome does not depend on the player code or the signature interpreter |
| Extractor.SignatureFailureIsWrapped | ytube-extractor/src/main/java/com/raka/ytube_extractor/YoutubeJExtractor.java:97-104 | an interpreter failure on the first adaptive format surfaces as an extraction failure caused by it |
| Extractor.DecryptionKeepsPartition | ytube-extractor/src/main/java/com/raka/ytube_extractor/YoutubeJExtractor.java:99-101 | decryption keeps each descriptor's kind, so the audio and video lists have the same sizes as for the undecrypted formats |
| Extractor.LiveWithoutFormatsFailsAsWritten | ytube-extractor/src/main/java/com/raka/ytube_extractor/YoutubeJExtractor.java:278-284 | live content with streaming data but no adaptive list is reported as not ciphered, and the partition as written then throws |
| Extractor.LiveWithoutFormatsIsExtracted | ytube-extractor/src/main/java/com/raka/ytube_extractor/YoutubeJExtractor.java:97-101 | with the corrected partition, such an available live video is extracted with empty audio and video lists and nothing else changed |
| Strings.RewriteLeavesNoWebClient | ytube-extractor/src/main/java/com/raka/ytube_extractor/YoutubeJExtractor.java:110 | rewriting `c=WEB` to `c=ANDROID_EMBEDDED_PLAYER` leaves no `c=WEB` in any string |
| Strings.ReplaceAbsentIsIdentity | ytube-extractor/src/main/java/com/raka/ytube_extractor/YoutubeJExtractor.java:110 | replacing a target that does not occur changes nothing |

## Left out

- Network: fetching the watch page, the embedded page, video info, the player script and subtitles. The watch-page text is an input, and transport failures reach the model only through `playerCode` and `decrypt`.
- The age-restricted branch of `extractYoutubeVideoData` and `getVideoInfoForAgeRestrictedVideo`. They depend on the network and on `ExtractionUtils` and `StringUtils.splitUrlParams`, which are not part of this model. `Extract` models the branch for pages that are not age-restricted.
- `extractSubtitles`. It walks XML documents fetched over the network and turns parse failures into an empty map.
- The callback overload of `extract`. It is a thin adapter that skips every step after `extractVideoData`: the gate, detection, decryption and the partition.
- Logging and the constructors.
- The regex engine, `CommonUtils.matchWithPatterns`, Gson, `StringUtils.urlDecode`, `DecryptionUtils`, `ExtractionUtils` and `YoutubePlayerUtils` are not part of this model. They are parameters. `matchWithPatterns` is assumed to return group 1 of the first pattern, in list order, that finds a match.
- Decoding is total. A malformed capture that would make Gson throw is not modelled.
- `Extract` is also silent about the `IOException` catch of `extractYoutubeVideoData`, because the network calls that raise it are left out.
- The `videoPageHtml` field is not modelled. The player-code lookup reads this shared mutable field; here it is a collaborator result for the page, so concurrent use of one extractor instance is not modelled.
- `Extractor.UnavailableFailure`: an absent simple-text at the end of the error-screen chain is folded into the absent chain. Java would concatenate the text `null` rather than throw, because the chain is one optional reason here.
- `Extractor.WrapSignatureFailure`: the wrapped exception's message is the cause's message. Java's `Throwable` constructor would use the cause's `toString`, with the class name in front.
- A `null` entry inside the adaptive-format or muxed-stream list is not modelled. Java would throw a `NullPointerException` at lines 132, 304 or 310, but the lists hold descriptors, not optional descriptors.
- An absent signature `s` in a cipher is not modelled. `Cipher.s` is a plain string, because what `urlDecode` does with `null` (Cipher.java line 20) depends on `StringUtils`, which is not part of this model.
- `AdaptiveAudioStream` and `AdaptiveVideoStream` wrap a format with constructors that are not part of this model. The audio and video lists hold the formats themselves.
- In-place mutation: when decryption fails part-way, Java leaves the earlier descriptors modified. The exception then propagates and no caller sees them, so the pure model returns only the failure.

## Findings

| source | as written | input that shows it | evidently intended | confidence | as-written member | corrected member |
|---|---|---|---|---|---|---|
| ytube-extractor/src/main/java/com/raka/ytube_extractor/YoutubeJExtractor.java:131 | the partition iterates over `getAdaptiveFormats()` without a null check. It is reached at line 101 after `streamsAreCiphered` returned false for live content without an adaptive list (lines 278-284) | a live video whose player response has `streamingData` but no `adaptiveFormats` field | return the configuration so that the caller can use the DASH or HLS manifests, as the log message at lines 281-283 says | medium, not executed; the field defaults of `StreamingData` are not part of this model | Extractor.LiveWithoutFormatsFailsAsWritten | Extractor.LiveWithoutFormatsIsExtracted |

=== FILE: cipher_detection.dfy ===
/** Deciding whether a batch of streams carries encrypted signatures. */
module CipherDetection {
  import opened Failures
  import opened Records

  const NoStreamingDataMessage := "RawStreamingData object was null"
  const NoAdaptiveFormatsMessage := "AdaptiveFormatItem list was null or empty"

  predicate HasNoFormats(formats: Option<seq<StreamFormat>>) {
    formats.None? || |formats.value| == 0
  }

  /** `streamsAreCiphered`: the first adaptive format speaks for the whole
      batch. Missing streaming data is an error; so is an absent or empty
      adaptive list, except for live content, which then counts as not
      ciphered. The live flag is read only once streaming data exists. */
  function StreamsAreCiphered(cfg: PlayerConfig): (r: Result<bool>)
    ensures cfg.streamingData.None? ==> r == Err(Extraction(NoStreamingDataMessage, None))
    ensures cfg.streamingData.Some? && cfg.videoDetails.None? ==> r == Err(NullPointer)
    ensures cfg.streamingData.Some? && cfg.videoDetails.Some? ==>
      var formats := cfg.streamingData.value.adaptiveFormats;
      && (HasNoFormats(formats) && cfg.videoDetails.value.isLiveContent ==> r == Ok(false))
      && (HasNoFormats(formats) && !cfg.videoDetails.value.isLiveContent ==> r == Err(Extraction(NoAdaptiveFormatsMessage, None)))
      && (!HasNoFormats(formats) ==> r == Ok(formats.value[0].cipher.Some?))
    ensures r == Ok(true) ==>
      && cfg.streamingData.Some?
      && cfg.streamingData.value.adaptiveFormats.Some?
      && |cfg.streamingData.value.adaptiveFormats.value| > 0
      && cfg.streamingData.value.adaptiveFormats.value[0].cipher.Some?
    ensures r.Ok? ==> cfg.streamingData.Some?
  {
    var streamingData :- match cfg.streamingData
      case None => Err(Extraction(NoStreamingDataMessage, None))
      case Some(sd) => Ok(sd);
    var formats := streamingData.adaptiveFormats;
    var details :- Deref(cfg.videoDetails);
    if details.isLiveContent && HasNoFormats(formats) then
      Ok(false)
    else if !HasNoFormats(formats) then
      Ok(formats.value[0].cipher.Some?)
    else
      Err(Extraction(NoAdaptiveFormatsMessage, None))
  }

  /** Only the first adaptive format is consulted: ciphers on later entries
      change nothing. */
  lemma OnlyFirstFormatDecides(cfg: PlayerConfig, later: seq<StreamFormat>)
    requires cfg.streamingData.Some? && cfg.streamingData.value.adaptiveFormats.Some?
    requires |cfg.streamingData.value.adaptiveFormats.value| > 0
    ensures
      var sd := cfg.streamingData.value;
      var first := sd.adaptiveFormats.value[0];
      StreamsAreCiphered(cfg.(streamingData := Some(sd.(adaptiveFormats := Some([first] + later)))))
        == StreamsAreCiphered(cfg)
  {
  }
}

=== FILE: config_extraction.dfy ===
/** Recovering the player response embedded in the watch page. */
module ConfigExtraction {
  import opened Failures
  import opened Records
  import opened Strings

  /** The inline-assignment conventions, current first, then the two legacy ones. */
  const InitialPlayerResponsePattern := "ytInitialPlayerResponse\\s*=\\s*(\\{.+?\\})\\s*;"
  const PlayerConfigBeforePlayerPattern := ";ytplayer\\.config\\s*=\\s*(\\{.+?\\});ytplayer"
  const PlayerConfigPattern := ";ytplayer\\.config\\s*=\\s*(\\{.+?\\});"
  const ConfigPatterns := [InitialPlayerResponsePattern, PlayerConfigBeforePlayerPattern, PlayerConfigPattern]

  /** The banner shown instead of a player; group 1 is its text. */
  const UnavailableMessagePattern := "<h1\\sid=\"unavailable-message\"\\sclass=\"message\">\\n\\s+(.+?)\\n\\s+<\\/h1>"

  const NoConfigPrefix := "Cannot extract youtube player config, videoId was: "
  const ReasonSeparator := ", reason: "

  /** `matchWithPatterns`: group 1 of the first pattern, in list order, that
      finds a match in `text`; absent when none does. */
  function MatchWithPatterns(find: (string, string) -> Option<string>, patterns: seq<string>, text: string): (r: Option<string>)
    ensures r.Some? <==> exists i :: 0 <= i < |patterns| && find(patterns[i], text).Some?
    ensures r.Some? ==>
      exists i :: 0 <= i < |patterns| && r == find(patterns[i], text)
        && forall j :: 0 <= j < i ==> find(patterns[j], text).None?
    decreases |patterns|
  {
    if |patterns| == 0 then
      None
    else
      match find(patterns[0], text)
      case Some(group) => Some(group)
      case None =>
        var r := MatchWithPatterns(find, patterns[1..], text);
        assert forall i :: 1 <= i < |patterns| ==> patterns[i] == patterns[1..][i - 1];
        r
  }

  /** `extractYoutubePlayerConfig`: decode what the first matching convention
      captured. When none matches, fail with a message naming the video, and
      carrying the banner text when the unavailable banner is present. */
  function ExtractYoutubePlayerConfig(
    find: (string, string) -> Option<string>,
    decode: string -> PlayerConfig,
    videoId: string,
    page: string): (r: Result<PlayerConfig>)
    ensures find(InitialPlayerResponsePattern, page).Some? ==>
      r == Ok(decode(find(InitialPlayerResponsePattern, page).value))
    ensures find(InitialPlayerResponsePattern, page).None? && find(PlayerConfigBeforePlayerPattern, page).Some? ==>
      r == Ok(decode(find(PlayerConfigBeforePlayerPattern, page).value))
    ensures (&& find(InitialPlayerResponsePattern, page).None?
             && find(PlayerConfigBeforePlayerPattern, page).None?
             && find(PlayerConfigPattern, page).Some?) ==>
      r == Ok(decode(find(PlayerConfigPattern, page).value))
    ensures r.Ok? <==>
      || find(InitialPlayerResponsePattern, page).Some?
      || find(PlayerConfigBeforePlayerPattern, page).Some?
      || find(PlayerConfigPattern, page).Some?
    ensures r.Err? ==> r.error.Extraction? && r.error.cause.None?
    ensures r.Err? ==> IsPrefix(NoConfigPrefix, r.error.message) && Contains(r.error.message, videoId)
    ensures r.Err? && find(UnavailableMessagePattern, page).Some? ==>
      r.error.message == NoConfigPrefix + videoId + ReasonSeparator + find(UnavailableMessagePattern, page).value
    ensures r.Err? && find(UnavailableMessagePattern, page).None? ==>
      r.error.message[|NoConfigPrefix|..] == videoId
  {
    assert MatchWithPatterns(find, ConfigPatterns, page)
      == if find(InitialPlayerResponsePattern, page).Some? then find(InitialPlayerResponsePattern, page)
         else if find(PlayerConfigBeforePlayerPattern, page).Some? then find(PlayerConfigBeforePlayerPattern, page)
         else find(PlayerConfigPattern, page) by {
      assert ConfigPatterns[1..] == [PlayerConfigBeforePlayerPattern, PlayerConfigPattern];
      assert ConfigPatterns[1..][1..] == [PlayerConfigPattern];
      assert [PlayerConfigPattern][1..] == [];
      assert MatchWithPatterns(find, [PlayerConfigPattern], page) == find(PlayerConfigPattern, page);
    }
    match MatchWithPatterns(find, ConfigPatterns, page)
    case Some(json) =>
      Ok(decode(json))
    case None =>
      match find(UnavailableMessagePattern, page)
      case Some(banner) =>
        var message := NoConfigPrefix + videoId + ReasonSeparator + banner;
        ContainsInfix(NoConfigPrefix, videoId, ReasonSeparator + banner);
        assert NoConfigPrefix + videoId + (ReasonSeparator + banner) == message;
        assert message[..|NoConfigPrefix|] == NoConfigPrefix;
        Err(Extraction(message, None))
      case None =>
        var message := NoConfigPrefix + videoId;
        ContainsInfix(NoConfigPrefix, videoId, []);
        assert NoConfigPrefix + videoId + [] == message;
        Err(Extraction(message, None))
  }
}

=== FILE: decryption.dfy ===
/** Replacing each stream's encrypted signature by its decryption. */
module Decryption {
  import opened Failures
  import opened Records

  /** `g` is `f` with only its cipher's signature replaced: the new signature
      is the decryption of the URL-decoded old one; `sp`, `url` and every
      other field of the descriptor are as before. */
  ghost predicate SignatureReplaced(env: Collaborators, code: PlayerCode, f: StreamFormat, g: StreamFormat) {
    && f.cipher.Some? && g.cipher.Some?
    && env.decrypt(code, env.urlDecode(f.cipher.value.s)).Ok?
    && g.cipher.value.s == env.decrypt(code, env.urlDecode(f.cipher.value.s)).value
    && g.cipher.value.sp == f.cipher.value.sp
    && g.cipher.value.url == f.cipher.value.url
    && g.(cipher := f.cipher) == f
  }

  /** One iteration of the decryption loops: read the signature through
      `getS`, decrypt it, store it with `setS`. A descriptor without a cipher
      is dereferenced and throws. */
  function DecryptFormat(env: Collaborators, code: PlayerCode, f: StreamFormat): (r: Result<StreamFormat>)
    ensures f.cipher.None? ==> r == Err(NullPointer)
    ensures f.cipher.Some? && env.decrypt(code, env.urlDecode(f.cipher.value.s)).Err? ==>
      r == Err(env.decrypt(code, env.urlDecode(f.cipher.value.s)).error)
    ensures r.Ok? <==> f.cipher.Some? && env.decrypt(code, env.urlDecode(f.cipher.value.s)).Ok?
    ensures r.Ok? ==> SignatureReplaced(env, code, f, r.value)
  {
    var cipher :- Deref(f.cipher);
    var decrypted :- env.decrypt(code, GetS(cipher, env.urlDecode));
    Ok(f.(cipher := Some(SetS(cipher, decrypted))))
  }

  /** A decryption loop over one list, front to back: it stops at the first
      descriptor that fails, with that descriptor's failure. */
  function DecryptFormats(env: Collaborators, code: PlayerCode, formats: seq<StreamFormat>): (r: Result<seq<StreamFormat>>)
    ensures r.Ok? <==> forall i :: 0 <= i < |formats| ==> DecryptFormat(env, code, formats[i]).Ok?
    ensures r.Ok? ==> |r.value| == |formats|
    ensures r.Ok? ==> forall i :: 0 <= i < |formats| ==> SignatureReplaced(env, code, formats[i], r.value[i])
    ensures r.Err? ==>
      exists i :: 0 <= i < |formats|
        && DecryptFormat(env, code, formats[i]) == Err(r.error)
        && forall j :: 0 <= j < i ==> DecryptFormat(env, code, formats[j]).Ok?
    decreases |formats|
  {
    if |formats| == 0 then
      Ok([])
    else
      assert forall i :: 1 <= i < |formats| ==> formats[i] == formats[1..][i - 1];
      var first :- DecryptFormat(env, code, formats[0]);
      var rest :- DecryptFormats(env, code, formats[1..]);
      Ok([first] + rest)
  }

  /** `decryptYoutubeStreams`: locate the player code, then decrypt every
      adaptive format and after them every muxed stream. Only the ciphers'
      signatures change; list lengths, all other fields, and everything
      outside the two lists stay as they were. */
  function DecryptYoutubeStreams(env: Collaborators, cfg: PlayerConfig): (r: Result<PlayerConfig>)
    ensures cfg.streamingData.None? ==> r == Err(NullPointer)
    ensures cfg.streamingData.Some? && env.playerCode.Err? ==> r == Err(env.playerCode.error)
    ensures cfg.streamingData.Some? && env.playerCode.Ok? && cfg.streamingData.value.adaptiveFormats.None? ==>
      r == Err(NullPointer)
    ensures cfg.streamingData.Some? && env.playerCode.Ok? && cfg.streamingData.value.adaptiveFormats.Some? ==>
      var sd := cfg.streamingData.value;
      var adaptive := DecryptFormats(env, env.playerCode.value, sd.adaptiveFormats.value);
      && (adaptive.Err? ==> r == Err(adaptive.error))
      && (adaptive.Ok? && sd.muxedStreams.None? ==> r == Err(NullPointer))
      && (adaptive.Ok? && sd.muxedStreams.Some?
          && DecryptFormats(env, env.playerCode.value, sd.muxedStreams.value).Err? ==>
            r == Err(DecryptFormats(env, env.playerCode.value, sd.muxedStreams.value).error))
    ensures r.Ok? <==>
      && cfg.streamingData.Some?
      && env.playerCode.Ok?
      && var sd := cfg.streamingData.value;
      && sd.adaptiveFormats.Some?
      && sd.muxedStreams.Some?
      && (forall i :: 0 <= i < |sd.adaptiveFormats.value| ==>
            DecryptFormat(env, env.playerCode.value, sd.adaptiveFormats.value[i]).Ok?)
      && (forall i :: 0 <= i < |sd.muxedStreams.value| ==>
            DecryptFormat(env, env.playerCode.value, sd.muxedStreams.value[i]).Ok?)
    ensures r.Ok? ==>
      && var sd := cfg.streamingData.value;
      && var code := env.playerCode.value;
      && r.value.streamingData.Some?
      && var sd' := r.value.streamingData.value;
      && r.value.(streamingData := cfg.streamingData) == cfg
      && sd'.(adaptiveFormats := sd.adaptiveFormats, muxedStreams := sd.muxedStreams) == sd
      && sd'.adaptiveFormats.Some? && |sd'.adaptiveFormats.value| == |sd.adaptiveFormats.value|
      && sd'.muxedStreams.Some? && |sd'.muxedStreams.value| == |sd.muxedStreams.value|
      && (forall i :: 0 <= i < |sd.adaptiveFormats.value| ==>
            SignatureReplaced(env, code, sd.adaptiveFormats.value[i], sd'.adaptiveFormats.value[i]))
      && (forall i :: 0 <= i < |sd.muxedStreams.value| ==>
            SignatureReplaced(env, code, sd.muxedStreams.value[i], sd'.muxedStreams.value[i]))
  {
    var sd :- Deref(cfg.streamingData);
    var code :- env.playerCode;
    var adaptive :- Deref(sd.adaptiveFormats);
    var adaptive' :- DecryptFormats(env, code, adaptive);
    var muxed :- Deref(sd.muxedStreams);
    var muxed' :- DecryptFormats(env, code, muxed);
    Ok(cfg.(streamingData := Some(sd.(adaptiveFormats := Some(adaptive'), muxedStreams := Some(muxed')))))
  }
}

=== FILE: extractor.dfy ===
/** The top-level extraction sequence: configuration, playability gate,
    cipher detection, decryption when needed, stream partition. */
module Extractor {
  import opened Failures
  import opened Records
  import opened Strings
  import opened Playability
  import opened CipherDetection
  import opened ConfigExtraction
  import opened Decryption
  import opened Partition
  import opened Seqs

  const UnavailablePrefix := "This video is unavailable, reason: "

  /** The exception raised for an unavailable video; reading its reason walks
      the error screen, which throws when a link is absent. */
  function UnavailableFailure(ps: Option<PlayabilityStatus>): (f: Failure)
    ensures ps.Some? && ps.value.errorScreenReason.Some? ==>
      f.VideoIsUnavailable? && IsPrefix(UnavailablePrefix, f.message)
      && f.message[|UnavailablePrefix|..] == ps.value.errorScreenReason.value
    ensures (ps.None? || ps.value.errorScreenReason.None?) ==> f == NullPointer
  {
    match ps
    case Some(PlayabilityStatus(_, _, Some(reason))) =>
      var message := UnavailablePrefix + reason;
      assert message[..|UnavailablePrefix|] == UnavailablePrefix;
      VideoIsUnavailable(message)
    case _ => NullPointer
  }

  /** Lines 91-100 of the `try` block of `extract`, for a watch page that is
      not age-restricted: configuration, gate, detection, and decryption when
      the streams are ciphered. */
  function DecryptedConfig(env: Collaborators, videoId: string, page: string): Result<PlayerConfig> {
    var cfg :- ExtractYoutubePlayerConfig(env.find, env.decode, videoId, page);
    var unavailable :- IsVideoUnavailable(cfg);
    if unavailable then
      Err(UnavailableFailure(cfg.playabilityStatus))
    else
      var ciphered :- StreamsAreCiphered(cfg);
      if ciphered then DecryptYoutubeStreams(env, cfg) else Ok(cfg)
  }

  /** The whole `try` block of `extract`: the stages above, then the
      partition as written. */
  function ExtractStages(env: Collaborators, videoId: string, page: string): Result<PlayerConfig> {
    var decrypted :- DecryptedConfig(env, videoId, page);
    var sorted :- SortAdaptiveStreamsByTypeAsWritten(decrypted.streamingData.value);
    Ok(decrypted.(streamingData := Some(sorted)))
  }

  /** The `catch` of `extract`: a signature failure leaves as an extraction failure caused by it. */
  function WrapSignatureFailure(e: Failure): (f: Failure)
    ensures !f.SignatureDecryption?
    ensures e.SignatureDecryption? ==> f == Extraction(e.message, Some(e))
    ensures !e.SignatureDecryption? ==> f == e
  {
    if e.SignatureDecryption? then Extraction(e.message, Some(e)) else e
  }

  /** A decryption that succeeded keeps every descriptor's duration and mime
      type, so the partition fails after it exactly when it fails before it. */
  lemma DecryptionKeepsSortOutcome(env: Collaborators, cfg: PlayerConfig)
    ensures DecryptYoutubeStreams(env, cfg).Ok? ==>
      SortAdaptiveStreamsByTypeAsWritten(DecryptYoutubeStreams(env, cfg).value.streamingData.value).Ok?
        == SortAdaptiveStreamsByTypeAsWritten(cfg.streamingData.value).Ok?
  {
    if DecryptYoutubeStreams(env, cfg).Ok? {
      var before := cfg.streamingData.value.adaptiveFormats.value;
      var after := DecryptYoutubeStreams(env, cfg).value.streamingData.value.adaptiveFormats.value;
      forall i | 0 <= i < |before| ensures LacksMimeType(before[i]) == LacksMimeType(after[i]) {
        assert after[i].(cipher := before[i].cipher) == before[i];
      }
    }
  }

  /** The `catch` of `extract` applied to the outcome of its `try` block: a
      success stays a success and a failure a failure, and no signature
      failure gets past it. A signature failure becomes an
      extraction failure caused by it; every other failure leaves as it came. */
  function CatchSignatureFailure(r: Result<PlayerConfig>): (r': Result<PlayerConfig>)
    ensures r'.Ok? <==> r.Ok?
    ensures r'.Err? ==> !r'.error.SignatureDecryption?
    ensures r.Err? && r.error.SignatureDecryption? ==> r'.error.Extraction? && r'.error.cause == Some(r.error)
    ensures r.Err? && !r.error.SignatureDecryption? ==> r' == r
    ensures r.Ok? ==> r' == r
    ensures r.Err? ==> r' == Err(WrapSignatureFailure(r.error))
  {
    match r
    case Ok(cfg) => Ok(cfg)
    case Err(e) => Err(WrapSignatureFailure(e))
  }

  /** `extract`: the stages run in order and each failure stops the chain,
      passing out unchanged except that a signature failure is wrapped. The
      gate comes before detection, decryption happens only for ciphered
      streams, and the partition runs last; extraction succeeds exactly when
      every stage does. Only the streaming data of the configuration changes. */
  function Extract(env: Collaborators, videoId: string, page: string): (r: Result<PlayerConfig>)
    ensures r.Err? ==> !r.error.SignatureDecryption?
    ensures ExtractYoutubePlayerConfig(env.find, env.decode, videoId, page).Err? ==>
      r == Err(ExtractYoutubePlayerConfig(env.find, env.decode, videoId, page).error)
    ensures ExtractYoutubePlayerConfig(env.find, env.decode, videoId, page).Ok? ==>
      var cfg := ExtractYoutubePlayerConfig(env.find, env.decode, videoId, page).value;
      && (IsVideoUnavailable(cfg).Err? ==> r == Err(IsVideoUnavailable(cfg).error))
      && (IsVideoUnavailable(cfg) == Ok(true) ==> r == Err(UnavailableFailure(cfg.playabilityStatus)))
      && (IsVideoUnavailable(cfg) == Ok(false) && StreamsAreCiphered(cfg).Err? ==>
            r == Err(StreamsAreCiphered(cfg).error))
      && (IsVideoUnavailable(cfg) == Ok(false) && StreamsAreCiphered(cfg) == Ok(true)
          && DecryptYoutubeStreams(env, cfg).Err? ==>
            r == Err(WrapSignatureFailure(DecryptYoutubeStreams(env, cfg).error)))
      && (r.Ok? <==>
            && IsVideoUnavailable(cfg) == Ok(false)
            && StreamsAreCiphered(cfg).Ok?
            && (StreamsAreCiphered(cfg) == Ok(true) ==> DecryptYoutubeStreams(env, cfg).Ok?)
            && SortAdaptiveStreamsByTypeAsWritten(cfg.streamingData.value).Ok?)
      && (&& IsVideoUnavailable(cfg) == Ok(false)
          && StreamsAreCiphered(cfg).Ok?
          && (StreamsAreCiphered(cfg) == Ok(true) ==> DecryptYoutubeStreams(env, cfg).Ok?)
          && SortAdaptiveStreamsByTypeAsWritten(cfg.streamingData.value).Err? ==>
            r == Err(NullPointer))
      && (r.Ok? ==> r.value.(streamingData := cfg.streamingData) == cfg)
      && (r.Ok? && StreamsAreCiphered(cfg) == Ok(false) ==>
            && r.value.streamingData.Some?
            && r.value.streamingData.value.adaptiveFormats == cfg.streamingData.value.adaptiveFormats
            && r.value.streamingData.value.muxedStreams == cfg.streamingData.value.muxedStreams)
      && (r.Ok? && StreamsAreCiphered(cfg) == Ok(true) ==>
            && env.playerCode.Ok?
            && r.value.streamingData.Some?
            && r.value.streamingData.value.adaptiveFormats.Some?
            && var before := cfg.streamingData.value.adaptiveFormats.value;
            && var after := r.value.streamingData.value.adaptiveFormats.value;
            && |after| == |before|
            && (forall i :: 0 <= i < |before| ==> SignatureReplaced(env, env.playerCode.value, before[i], after[i]))
            && cfg.streamingData.value.muxedStreams.Some? && r.value.streamingData.value.muxedStreams.Some?
            && var muxedBefore := cfg.streamingData.value.muxedStreams.value;
            && var muxedAfter := r.value.streamingData.value.muxedStreams.value;
            && |muxedAfter| == |muxedBefore|
            && (forall i :: 0 <= i < |muxedBefore| ==> SignatureReplaced(env, env.playerCode.value, muxedBefore[i], muxedAfter[i])))
    ensures r.Ok? ==> r.value.streamingData.Some? && IsSorted(r.value.streamingData.value)
  {
    assert (var config := ExtractYoutubePlayerConfig(env.find, env.decode, videoId, page);
            config.Ok? && DecryptYoutubeStreams(env, config.value).Ok? ==>
              SortAdaptiveStreamsByTypeAsWritten(DecryptYoutubeStreams(env, config.value).value.streamingData.value).Ok?
                == SortAdaptiveStreamsByTypeAsWritten(config.value.streamingData.value).Ok?) by {
      var config := ExtractYoutubePlayerConfig(env.find, env.decode, videoId, page);
      if config.Ok? {
        DecryptionKeepsSortOutcome(env, config.value);
      }
    }
    CatchSignatureFailure(ExtractStages(env, videoId, page))
  }

  /** `extract` with the partition that reads an absent adaptive-format list
      as empty. It differs from `Extract` only for an available video whose
      streams are reported as not ciphered and whose adaptive-format list is
      absent: there the partition as written throws, and this one succeeds. */
  function ExtractCorrected(env: Collaborators, videoId: string, page: string): (r: Result<PlayerConfig>)
    ensures r != Extract(env, videoId, page) ==>
      && Extract(env, videoId, page) == Err(NullPointer)
      && r.Ok?
      && r.value.streamingData.Some?
      && r.value.streamingData.value.adaptiveFormats.None?
      && ExtractYoutubePlayerConfig(env.find, env.decode, videoId, page).Ok?
      && var cfg := ExtractYoutubePlayerConfig(env.find, env.decode, videoId, page).value;
      && IsVideoUnavailable(cfg) == Ok(false)
      && StreamsAreCiphered(cfg) == Ok(false)
      && cfg.streamingData.value.adaptiveFormats.None?
    ensures ExtractYoutubePlayerConfig(env.find, env.decode, videoId, page).Ok? ==>
      var cfg := ExtractYoutubePlayerConfig(env.find, env.decode, videoId, page).value;
      (&& IsVideoUnavailable(cfg) == Ok(false)
       && StreamsAreCiphered(cfg) == Ok(false)
       && cfg.streamingData.value.adaptiveFormats.None?) ==>
        && r.Ok?
        && Extract(env, videoId, page) == Err(NullPointer)
        && var sd := cfg.streamingData.value;
        && r.value == cfg.(streamingData := Some(sd.(adaptiveAudioStreams := Some([]), adaptiveVideoStreams := Some([]))))
    ensures r.Ok? ==> r.value.streamingData.Some? && IsSorted(r.value.streamingData.value)
  {
    CatchSignatureFailure(
      var decrypted :- DecryptedConfig(env, videoId, page);
      var sorted :- SortAdaptiveStreamsByType(decrypted.streamingData.value);
      Ok(decrypted.(streamingData := Some(sorted))))
  }

  /** `getUrl`: the first muxed stream's URL, which may be absent. */
  function GetUrl(env: Collaborators, videoId: string, page: string): (r: Result<Option<string>>)
    ensures Extract(env, videoId, page).Err? ==> r == Err(Extract(env, videoId, page).error)
    ensures r.Ok? <==>
      && Extract(env, videoId, page).Ok?
      && var sd := Extract(env, videoId, page).value.streamingData;
      && sd.Some? && sd.value.muxedStreams.Some? && |sd.value.muxedStreams.value| > 0
    ensures r.Ok? ==> r.value == Extract(env, videoId, page).value.streamingData.value.muxedStreams.value[0].url
    ensures (&& Extract(env, videoId, page).Ok?
             && Extract(env, videoId, page).value.streamingData.Some?
             && Extract(env, videoId, page).value.streamingData.value.muxedStreams == Some([]))
      ==> r == Err(IndexOutOfBounds)
    ensures (&& Extract(env, videoId, page).Ok?
             && Extract(env, videoId, page).value.streamingData.Some?
             && Extract(env, videoId, page).value.streamingData.value.muxedStreams.None?)
      ==> r == Err(NullPointer)
  {
    var cfg :- Extract(env, videoId, page);
    // a successful extraction always has streaming data, so `requireNonNull` passes
    var sd := cfg.streamingData.value;
    var muxed :- Deref(sd.muxedStreams);
    if |muxed| == 0 then Err(IndexOutOfBounds) else Ok(muxed[0].url)
  }

  /** `getUrlForAndroidEmbeddedPlayer`: the first muxed stream's URL with the
      web client tag rewritten for the embedded player. The result never
      still names the web client, and a URL without that tag is returned as is. */
  function GetUrlForAndroidEmbeddedPlayer(env: Collaborators, videoId: string, page: string): (r: Result<string>)
    ensures GetUrl(env, videoId, page).Err? ==> r == Err(GetUrl(env, videoId, page).error)
    ensures GetUrl(env, videoId, page) == Ok(None) ==> r == Err(NullPointer)
    ensures r.Ok? <==> GetUrl(env, videoId, page).Ok? && GetUrl(env, videoId, page).value.Some?
    ensures r.Ok? ==> r.value == Replace(GetUrl(env, videoId, page).value.value, WebClient, EmbeddedClient)
    ensures r.Ok? ==> !Contains(r.value, WebClient)
    ensures r.Ok? && !Contains(GetUrl(env, videoId, page).value.value, WebClient) ==>
      r.value == GetUrl(env, videoId, page).value.value
  {
    var url :- GetUrl(env, videoId, page);
    var u :- Deref(url);
    var rewritten := Replace(u, WebClient, EmbeddedClient);
    RewriteLeavesNoWebClient(u);
    assert !Contains(u, WebClient) ==> rewritten == u by {
      if !Contains(u, WebClient) {
        ReplaceAbsentIsIdentity(u, WebClient, EmbeddedClient);
      }
    }
    Ok(rewritten)
  }

  /** An unavailable video fails before the player code is looked at: the
      outcome does not depend on the player code or the signature interpreter. */
  lemma UnavailableSkipsDecryption(
    env: Collaborators, videoId: string, page: string,
    playerCode: Result<PlayerCode>, decrypt: (PlayerCode, string) -> Result<string>)
    requires ExtractYoutubePlayerConfig(env.find, env.decode, videoId, page).Ok?
    requires IsVideoUnavailable(ExtractYoutubePlayerConfig(env.find, env.decode, videoId, page).value) == Ok(true)
    ensures Extract(env, videoId, page) == Extract(env.(playerCode := playerCode, decrypt := decrypt), videoId, page)
    ensures Extract(env, videoId, page).Err?
  {
  }

  /** Streams that are not ciphered are never decrypted: the outcome does not
      depend on the player code or the signature interpreter. */
  lemma PlainStreamsSkipDecryption(
    env: Collaborators, videoId: string, page: string,
    playerCode: Result<PlayerCode>, decrypt: (PlayerCode, string) -> Result<string>)
    requires ExtractYoutubePlayerConfig(env.find, env.decode, videoId, page).Ok?
    requires StreamsAreCiphered(ExtractYoutubePlayerConfig(env.find, env.decode, videoId, page).value) == Ok(false)
    ensures Extract(env, videoId, page) == Extract(env.(playerCode := playerCode, decrypt := decrypt), videoId, page)
  {
  }

  /** A signature interpreter failure on the first adaptive format of a
      ciphered, available video surfaces as an extraction failure caused by it. */
  lemma SignatureFailureIsWrapped(env: Collaborators, videoId: string, page: string, message: string)
    requires ExtractYoutubePlayerConfig(env.find, env.decode, videoId, page).Ok?
    requires
      var cfg := ExtractYoutubePlayerConfig(env.find, env.decode, videoId, page).value;
      && IsVideoUnavailable(cfg) == Ok(false)
      && StreamsAreCiphered(cfg) == Ok(true)
      && env.playerCode.Ok?
      && var first := cfg.streamingData.value.adaptiveFormats.value[0];
      env.decrypt(env.playerCode.value, env.urlDecode(first.cipher.value.s)) == Err(SignatureDecryption(message))
    ensures Extract(env, videoId, page) == Err(Extraction(message, Some(SignatureDecryption(message))))
  {
    var cfg := ExtractYoutubePlayerConfig(env.find, env.decode, videoId, page).value;
    var formats := cfg.streamingData.value.adaptiveFormats.value;
    assert DecryptFormat(env, env.playerCode.value, formats[0]) == Err(SignatureDecryption(message));
  }

  /** An available live video whose streaming data has no adaptive-format
      list passes detection as not ciphered, and the partition as written
      then iterates over the absent list: extraction throws. */
  lemma LiveWithoutFormatsFailsAsWritten(env: Collaborators, videoId: string, page: string)
    requires ExtractYoutubePlayerConfig(env.find, env.decode, videoId, page).Ok?
    requires
      var cfg := ExtractYoutubePlayerConfig(env.find, env.decode, videoId, page).value;
      && IsVideoUnavailable(cfg) == Ok(false)
      && cfg.streamingData.Some? && cfg.streamingData.value.adaptiveFormats.None?
      && cfg.videoDetails.Some? && cfg.videoDetails.value.isLiveContent
    ensures StreamsAreCiphered(ExtractYoutubePlayerConfig(env.find, env.decode, videoId, page).value) == Ok(false)
    ensures Extract(env, videoId, page) == Err(NullPointer)
  {
  }

  /** With the absent list read as empty, the same video is extracted, with
      empty audio and video lists and its configuration otherwise untouched. */
  lemma LiveWithoutFormatsIsExtracted(env: Collaborators, videoId: string, page: string)
    requires ExtractYoutubePlayerConfig(env.find, env.decode, videoId, page).Ok?
    requires
      var cfg := ExtractYoutubePlayerConfig(env.find, env.decode, videoId, page).value;
      && IsVideoUnavailable(cfg) == Ok(false)
      && cfg.streamingData.Some? && cfg.streamingData.value.adaptiveFormats.None?
      && cfg.videoDetails.Some? && cfg.videoDetails.value.isLiveContent
    ensures
      var cfg := ExtractYoutubePlayerConfig(env.find, env.decode, videoId, page).value;
      var sd := cfg.streamingData.value;
      ExtractCorrected(env, videoId, page)
        == Ok(cfg.(streamingData := Some(sd.(adaptiveAudioStreams := Some([]), adaptiveVideoStreams := Some([])))))
  {
  }

  /** Decryption changes only signatures, so it keeps every descriptor's kind:
      the decrypted list partitions into as many audio and video streams as
      the original. */
  lemma DecryptionKeepsPartition(env: Collaborators, code: PlayerCode, before: seq<StreamFormat>, after: seq<StreamFormat>)
    requires |before| == |after|
    requires forall i :: 0 <= i < |before| ==> SignatureReplaced(env, code, before[i], after[i])
    ensures |Filter(after, IsAudio)| == |Filter(before, IsAudio)|
    ensures |Filter(after, IsVideo)| == |Filter(before, IsVideo)|
  {
    forall i | 0 <= i < |before|
      ensures IsAudio(before[i]) == IsAudio(after[i]) && IsVideo(before[i]) == IsVideo(after[i])
    {
      assert after[i].(cipher := before[i].cipher) == before[i];
    }
    FilterSameShape(before, after, IsAudio, IsAudio);
    FilterSameShape(before, after, IsVideo, IsVideo);
  }
}

=== FILE: failures.dfy ===
/** Optional values and the failures an extraction can end in.

    Java `null` is modelled by `Option`; every checked exception the extractor
    declares, and the unchecked ones its code can raise on absent data, are
    constructors of `Failure`, so that a call either yields a value or names
    the exception it throws.
 */
module Failures {

  /** A value that the JSON decoder may have left absent (`null` in Java). */
  datatype Option<+T> = None | Some(value: T)

  datatype Failure =
      /** `ExtractionException`: markup or data no longer has the expected shape.
          `cause` is set when it wraps another exception. */
    | Extraction(message: string, cause: Option<Failure>)
      /** `YoutubeRequestException`: a transport-level failure of a collaborator. */
    | Request(message: string)
      /** `VideoIsUnavailable`: the platform says the video cannot be played. */
    | VideoIsUnavailable(message: string)
      /** `SignatureDecryptionException`: the signature interpreter failed. */
    | SignatureDecryption(message: string)
      /** Unchecked `NullPointerException` on a field the decoder left absent. */
    | NullPointer
      /** Unchecked `IndexOutOfBoundsException` on an empty list. */
    | IndexOutOfBounds

  /** A call that returns a `T` or throws a `Failure`; usable with `:-`. */
  datatype Result<+T> = Ok(value: T) | Err(error: Failure) {

    predicate IsFailure() {
      Err?
    }

    function PropagateFailure<U>(): Result<U>
      requires Err?
    {
      Err(error)
    }

    function Extract(): T
      requires Ok?
    {
      value
    }
  }

  /** Turns an absent value into the `NullPointerException` dereferencing it throws. */
  function Deref<T>(o: Option<T>): (r: Result<T>)
    ensures o.Some? <==> r.Ok?
    ensures r.Ok? ==> r.value == o.value
    ensures r.Err? ==> r.error == NullPointer
  {
    match o
    case Some(v) => Ok(v)
    case None => Err(NullPointer)
  }
}

=== FILE: partition.dfy ===
/** Splitting the adaptive formats into audio-only and video-only streams. */
module Partition {
  import opened Failures
  import opened Records
  import opened Strings
  import opened Seqs

  predicate HasDuration(f: StreamFormat) {
    f.approxDurationMs.Some?
  }

  /** Kept as audio: has a duration and its mime type mentions audio. */
  predicate IsAudio(f: StreamFormat) {
    HasDuration(f) && f.mimeType.Some? && Contains(f.mimeType.value, "audio")
  }

  /** Kept as video: has a duration and its mime type mentions video but not audio. */
  predicate IsVideo(f: StreamFormat) {
    HasDuration(f) && f.mimeType.Some? && !Contains(f.mimeType.value, "audio") && Contains(f.mimeType.value, "video")
  }

  /** Left out of both lists: no duration, or a mime type of an unknown kind. */
  predicate IsDropped(f: StreamFormat) {
    !IsAudio(f) && !IsVideo(f)
  }

  /** Has a duration but no mime type: testing the mime type dereferences null. */
  predicate LacksMimeType(f: StreamFormat) {
    HasDuration(f) && f.mimeType.None?
  }

  datatype Split = Split(audio: seq<StreamFormat>, video: seq<StreamFormat>)

  /** The loop of `sortAdaptiveStreamsByType` over the adaptive formats: one
      pass, skipping entries without a duration, the audio check before the video one. */
  function PartitionFormats(formats: seq<StreamFormat>): (r: Result<Split>)
    ensures r.Ok? <==> forall i :: 0 <= i < |formats| ==> !LacksMimeType(formats[i])
    ensures r.Err? ==> r.error == NullPointer
    ensures r.Ok? ==> r.value.audio == Filter(formats, IsAudio) && r.value.video == Filter(formats, IsVideo)
    decreases |formats|
  {
    if |formats| == 0 then
      Ok(Split([], []))
    else
      var f := formats[0];
      assert forall i :: 1 <= i < |formats| ==> formats[i] == formats[1..][i - 1];
      if f.approxDurationMs.None? then
        PartitionFormats(formats[1..])
      else if f.mimeType.None? then
        Err(NullPointer)
      else
        var rest :- PartitionFormats(formats[1..]);
        if Contains(f.mimeType.value, "audio") then
          Ok(rest.(audio := [f] + rest.audio))
        else if Contains(f.mimeType.value, "video") then
          Ok(rest.(video := [f] + rest.video))
        else
          Ok(rest)
  }

  /** The streaming data with its audio and video lists filled from `formats`. */
  function WithSplit(sd: StreamingData, split: Split): StreamingData {
    sd.(adaptiveAudioStreams := Some(split.audio), adaptiveVideoStreams := Some(split.video))
  }

  /** `sortAdaptiveStreamsByType` as written: iterating over an absent
      adaptive-format list throws. */
  function SortAdaptiveStreamsByTypeAsWritten(sd: StreamingData): (r: Result<StreamingData>)
    ensures sd.adaptiveFormats.None? ==> r == Err(NullPointer)
    ensures sd.adaptiveFormats.Some? ==> r == SortAdaptiveStreamsByType(sd)
  {
    var formats :- Deref(sd.adaptiveFormats);
    var split :- PartitionFormats(formats);
    Ok(WithSplit(sd, split))
  }

  /** The adaptive formats to partition, an absent list read as empty. */
  function FormatsOrEmpty(sd: StreamingData): seq<StreamFormat> {
    match sd.adaptiveFormats
    case Some(formats) => formats
    case None => []
  }

  /** `sortAdaptiveStreamsByType` with an absent adaptive-format list read as
      empty, so that live content without adaptive formats gets through. The
      audio list holds exactly the kept audio entries and the video list the
      kept video entries, in input order; nothing else in the streaming data
      changes. */
  function SortAdaptiveStreamsByType(sd: StreamingData): (r: Result<StreamingData>)
    ensures r.Ok? <==> forall i :: 0 <= i < |FormatsOrEmpty(sd)| ==> !LacksMimeType(FormatsOrEmpty(sd)[i])
    ensures r.Err? ==> r.error == NullPointer
    ensures r.Ok? ==>
      && r.value.adaptiveAudioStreams == Some(Filter(FormatsOrEmpty(sd), IsAudio))
      && r.value.adaptiveVideoStreams == Some(Filter(FormatsOrEmpty(sd), IsVideo))
      && r.value.adaptiveFormats == sd.adaptiveFormats
      && r.value.muxedStreams == sd.muxedStreams
    ensures sd.adaptiveFormats.None? ==> r == Ok(WithSplit(sd, Split([], [])))
  {
    var split :- PartitionFormats(FormatsOrEmpty(sd));
    Ok(WithSplit(sd, split))
  }

  /** The audio and video lists of `sd` are the partition of its own adaptive formats. */
  predicate IsSorted(sd: StreamingData) {
    && sd.adaptiveAudioStreams == Some(Filter(FormatsOrEmpty(sd), IsAudio))
    && sd.adaptiveVideoStreams == Some(Filter(FormatsOrEmpty(sd), IsVideo))
  }

  /** Every kept entry has a duration and the right kind of mime type; no entry
      is both audio and video; each list keeps the input order. */
  lemma PartitionSound(formats: seq<StreamFormat>)
    ensures forall x :: x in Filter(formats, IsAudio) ==>
      x in formats && HasDuration(x) && x.mimeType.Some? && Contains(x.mimeType.value, "audio")
    ensures forall x :: x in Filter(formats, IsVideo) ==>
      x in formats && HasDuration(x) && x.mimeType.Some? && Contains(x.mimeType.value, "video") && !Contains(x.mimeType.value, "audio")
    ensures forall x :: x in Filter(formats, IsAudio) ==> x !in Filter(formats, IsVideo)
    ensures IsSubsequence(Filter(formats, IsAudio), formats)
    ensures IsSubsequence(Filter(formats, IsVideo), formats)
  {
    FilterMembers(formats, IsAudio);
    FilterMembers(formats, IsVideo);
    FilterIsSubsequence(formats, IsAudio);
    FilterIsSubsequence(formats, IsVideo);
  }

  /** Audio, video and dropped entries together are exactly the input. The
      partition never adds entries, and loses none exactly when every entry
      has a duration and an audio or video mime type. */
  lemma PartitionCounts(formats: seq<StreamFormat>)
    ensures multiset(Filter(formats, IsAudio)) + multiset(Filter(formats, IsVideo)) + multiset(Filter(formats, IsDropped))
      == multiset(formats)
    ensures |Filter(formats, IsAudio)| + |Filter(formats, IsVideo)| <= |formats|
    ensures |Filter(formats, IsAudio)| + |Filter(formats, IsVideo)| == |formats| <==>
      forall i :: 0 <= i < |formats| ==> IsAudio(formats[i]) || IsVideo(formats[i])
  {
    FilterThreeWay(formats, IsAudio, IsVideo, IsDropped);
    FilterEmptyIff(formats, IsDropped);
  }
}

=== FILE: playability.dfy ===
/** The playability gate applied to a decoded player response. */
module Playability {
  import opened Failures
  import opened Records

  const ErrorStatus := "ERROR"
  const UnavailableReason := "Video unavailable"

  /** `isVideoUnavailable`: a video is unavailable only when a reason is
      given, and then exactly when the status is `ERROR` or the reason is the
      unavailable sentinel. An absent status object, or an absent status next
      to a present reason, is dereferenced and throws. */
  function IsVideoUnavailable(cfg: PlayerConfig): (r: Result<bool>)
    ensures cfg.playabilityStatus.None? ==> r == Err(NullPointer)
    ensures cfg.playabilityStatus.Some? && cfg.playabilityStatus.value.reason.None? ==> r == Ok(false)
    ensures r == Ok(true) <==>
      && cfg.playabilityStatus.Some?
      && var ps := cfg.playabilityStatus.value;
      && ps.reason.Some?
      && ps.status.Some?
      && (ps.status.value == ErrorStatus || ps.reason.value == UnavailableReason)
    ensures r.Err? <==>
      || cfg.playabilityStatus.None?
      || (cfg.playabilityStatus.value.reason.Some? && cfg.playabilityStatus.value.status.None?)
    ensures r.Err? ==> r.error == NullPointer
  {
    var ps :- Deref(cfg.playabilityStatus);
    if ps.reason.Some? then
      var status :- Deref(ps.status);
      Ok(status == ErrorStatus || ps.reason.value == UnavailableReason)
    else
      Ok(false)
  }

  /** Whatever the status says, even `ERROR`, a missing reason keeps the video available. */
  lemma ErrorWithoutReasonIsAvailable(cfg: PlayerConfig)
    requires cfg.playabilityStatus.Some?
    requires cfg.playabilityStatus.value.status == Some(ErrorStatus)
    requires cfg.playabilityStatus.value.reason.None?
    ensures IsVideoUnavailable(cfg) == Ok(false)
  {
  }

  /** The sentinel reason makes the video unavailable whatever the status. */
  lemma SentinelReasonIsUnavailable(cfg: PlayerConfig, status: string)
    requires cfg.playabilityStatus.Some?
    requires cfg.playabilityStatus.value.status == Some(status)
    requires cfg.playabilityStatus.value.reason == Some(UnavailableReason)
    ensures IsVideoUnavailable(cfg) == Ok(true)
  {
  }
}

=== FILE: records.dfy ===
/** The decoded player response and the collaborators the extractor consults.

    Only the fields the extraction logic reads or writes are kept; the rest of
    the JSON schema is carried by the decoder and never inspected.
 */
module Records {
  import opened Failures

  /** The signature cipher of a protected stream: encrypted signature `s`,
      the query-parameter name `sp` it belongs under, and the base `url`. */
  datatype Cipher = Cipher(s: string, sp: string, url: string)

  /** `Cipher.getS`: the stored signature, URL-decoded on the way out. */
  function GetS(c: Cipher, urlDecode: string -> string): string
  {
    urlDecode(c.s)
  }

  /** `Cipher.setS`: overwrites the stored signature as given, and nothing else. */
  function SetS(c: Cipher, v: string): (r: Cipher)
    ensures r.s == v
    ensures r.sp == c.sp && r.url == c.url
  {
    c.(s := v)
  }

  /** One stream descriptor: an adaptive format item or a muxed stream. */
  datatype StreamFormat = StreamFormat(
    itag: int,
    mimeType: Option<string>,
    bitrate: int,
    approxDurationMs: Option<string>,
    url: Option<string>,
    cipher: Option<Cipher>)

  /** The streams of a video. The audio and video lists stay absent until
      the partition fills them from the adaptive formats. */
  datatype StreamingData = StreamingData(
    adaptiveFormats: Option<seq<StreamFormat>>,
    muxedStreams: Option<seq<StreamFormat>>,
    adaptiveAudioStreams: Option<seq<StreamFormat>>,
    adaptiveVideoStreams: Option<seq<StreamFormat>>)

  /** `errorScreenReason` stands for the reason text reached through the
      error screen's message renderer; `None` when a link of that chain is absent. */
  datatype PlayabilityStatus = PlayabilityStatus(
    status: Option<string>,
    reason: Option<string>,
    errorScreenReason: Option<string>)

  datatype VideoDetails = VideoDetails(videoId: Option<string>, isLiveContent: bool)

  /** The player response embedded in the watch page. */
  datatype PlayerConfig = PlayerConfig(
    playabilityStatus: Option<PlayabilityStatus>,
    streamingData: Option<StreamingData>,
    videoDetails: Option<VideoDetails>)

  /** The player script located for the watch page and its decrypt function. */
  datatype PlayerCode = PlayerCode(playerUrl: string, code: string, decryptFunctionName: string)

  /** What the extractor takes from code this model does not contain:
      - `find(regex, text)`: group 1 of the first match of `regex` in `text`;
      - `decode(json)`: the tolerant JSON decoder;
      - `urlDecode`: URL percent-decoding;
      - `playerCode`: locating, fetching and reading the player script for
        the watch page, or the failure doing so;
      - `decrypt(code, signature)`: the signature interpreter. */
  datatype Collaborators = Collaborators(
    find: (string, string) -> Option<string>,
    decode: string -> PlayerConfig,
    urlDecode: string -> string,
    playerCode: Result<PlayerCode>,
    decrypt: (PlayerCode, string) -> Result<string>)

  /** Reading back a signature just stored yields its URL-decoding. */
  lemma GetAfterSet(c: Cipher, v: string, urlDecode: string -> string)
    ensures GetS(SetS(c, v), urlDecode) == urlDecode(v)
  {
  }
}

=== FILE: seqs.dfy ===
/** Order-preserving selection from a sequence, the reference against which
    the stream partition is stated. */
module Seqs {

  /** The elements of `s` satisfying `p`, in their original order. */
  function Filter<T>(s: seq<T>, p: T -> bool): seq<T>
    decreases |s|
  {
    if |s| == 0 then []
    else (if p(s[0]) then [s[0]] else []) + Filter(s[1..], p)
  }

  /** `sub` can be obtained from `s` by deleting elements. */
  ghost predicate IsSubsequence<T>(sub: seq<T>, s: seq<T>)
    decreases |s|
  {
    || |sub| == 0
    || (&& |s| > 0
        && ((sub[0] == s[0] && IsSubsequence(sub[1..], s[1..])) || IsSubsequence(sub, s[1..])))
  }

  lemma {:induction false} FilterMembers<T>(s: seq<T>, p: T -> bool)
    ensures forall x :: x in Filter(s, p) <==> x in s && p(x)
    decreases |s|
  {
    if |s| > 0 {
      FilterMembers(s[1..], p);
      assert s == [s[0]] + s[1..];
    }
  }

  lemma {:induction false} FilterIsSubsequence<T>(s: seq<T>, p: T -> bool)
    ensures IsSubsequence(Filter(s, p), s)
    decreases |s|
  {
    if |s| > 0 {
      FilterIsSubsequence(s[1..], p);
      var f := Filter(s, p);
      if p(s[0]) {
        assert f[0] == s[0] && f[1..] == Filter(s[1..], p);
      } else {
        assert f == Filter(s[1..], p);
      }
    }
  }

  /** Selecting nothing means no element satisfies the predicate. */
  lemma {:induction false} FilterEmptyIff<T>(s: seq<T>, p: T -> bool)
    ensures |Filter(s, p)| == 0 <==> forall i :: 0 <= i < |s| ==> !p(s[i])
    decreases |s|
  {
    if |s| > 0 {
      FilterEmptyIff(s[1..], p);
      assert forall i :: 1 <= i < |s| ==> s[i] == s[1..][i - 1];
    }
  }

  /** Three mutually exclusive, jointly exhaustive predicates split a
      sequence into three selections that together hold exactly its elements. */
  lemma {:induction false} FilterThreeWay<T>(s: seq<T>, p: T -> bool, q: T -> bool, d: T -> bool)
    requires forall x :: (p(x) && !q(x) && !d(x)) || (!p(x) && q(x) && !d(x)) || (!p(x) && !q(x) && d(x))
    ensures multiset(Filter(s, p)) + multiset(Filter(s, q)) + multiset(Filter(s, d)) == multiset(s)
    ensures |Filter(s, p)| + |Filter(s, q)| + |Filter(s, d)| == |s|
    decreases |s|
  {
    if |s| > 0 {
      FilterThreeWay(s[1..], p, q, d);
      assert s == [s[0]] + s[1..];
      assert multiset(s) == multiset{s[0]} + multiset(s[1..]);
    }
  }

  /** Sequences whose elements agree position by position on `p` yield
      selections of the same length. */
  lemma {:induction false} FilterSameShape<T, U>(s: seq<T>, t: seq<U>, p: T -> bool, q: U -> bool)
    requires |s| == |t|
    requires forall i :: 0 <= i < |s| ==> p(s[i]) == q(t[i])
    ensures |Filter(s, p)| == |Filter(t, q)|
    decreases |s|
  {
    if |s| > 0 {
      assert forall i :: 1 <= i < |s| ==> s[i] == s[1..][i - 1] && t[i] == t[1..][i - 1];
      FilterSameShape(s[1..], t[1..], p, q);
    }
  }
}

=== FILE: strings.dfy ===
/** The `java.lang.String` operations the extractor relies on, over `seq<char>`. */
module Strings {

  predicate IsPrefix(p: string, s: string) {
    |p| <= |s| && s[..|p|] == p
  }

  /** `s.contains(t)`: `t` occurs in `s` at some position. */
  predicate Contains(s: string, t: string)
    decreases |s|
  {
    IsPrefix(t, s) || (|s| > 0 && Contains(s[1..], t))
  }

  /** `s.replace(target, replacement)`: every occurrence of `target`, scanned left
      to right without overlap, is replaced. An empty target inserts the
      replacement before every character and at the end, as Java does. */
  function Replace(s: string, target: string, replacement: string): string
    decreases |s|
  {
    if |target| == 0 then
      if |s| == 0 then replacement
      else replacement + [s[0]] + Replace(s[1..], target, replacement)
    else if IsPrefix(target, s) then
      replacement + Replace(s[|target|..], target, replacement)
    else if |s| == 0 then
      []
    else
      [s[0]] + Replace(s[1..], target, replacement)
  }

  /** A string placed between any two others is contained in the result. */
  lemma {:induction false} ContainsInfix(a: string, t: string, b: string)
    ensures Contains(a + t + b, t)
  {
    if |a| == 0 {
      assert a + t + b == t + b;
      assert (t + b)[..|t|] == t;
    } else {
      ContainsInfix(a[1..], t, b);
      assert (a + t + b)[1..] == a[1..] + t + b;
    }
  }

  /** Replacing a non-empty target that does not occur leaves the string alone. */
  lemma {:induction false} ReplaceAbsentIsIdentity(s: string, target: string, replacement: string)
    requires |target| > 0
    requires !Contains(s, target)
    ensures Replace(s, target, replacement) == s
  {
    if |s| > 0 {
      ReplaceAbsentIsIdentity(s[1..], target, replacement);
      assert [s[0]] + s[1..] == s;
    }
  }

  /** The client tag of web-player stream URLs and its embedded-player rewrite. */
  const WebClient := "c=WEB"
  const EmbeddedClient := "c=ANDROID_EMBEDDED_PLAYER"

  /** A prefix free of `'c'` of the rewritten text was already a prefix of the
      original: the rewrite only emits text starting with `'c'` in its place. */
  lemma {:induction false} RewritePreservesPrefixWithoutC(p: string, t: string)
    requires 'c' !in p
    ensures IsPrefix(p, Replace(t, WebClient, EmbeddedClient)) ==> IsPrefix(p, t)
    decreases |t|
  {
    var r := Replace(t, WebClient, EmbeddedClient);
    if |p| == 0 {
      return;
    }
    if IsPrefix(WebClient, t) {
      assert r[0] == EmbeddedClient[0] == 'c';
      assert p[0] != 'c';
      assert !IsPrefix(p, r);
    } else if |t| == 0 {
      assert r == [];
    } else {
      var rest := Replace(t[1..], WebClient, EmbeddedClient);
      assert r == [t[0]] + rest;
      assert 'c' !in p[1..] by {
        forall k | 0 <= k < |p[1..]| ensures p[1..][k] != 'c' {
          assert p[1..][k] == p[k + 1];
        }
      }
      RewritePreservesPrefixWithoutC(p[1..], t[1..]);
      if IsPrefix(p, r) {
        assert p[0] == t[0];
        assert p[1..] == rest[..|p| - 1];
        assert t[..|p|] == [t[0]] + t[1..][..|p| - 1];
      }
    }
  }

  /** Text free of `'c'` in front of a string cannot create an occurrence of
      a target that starts with `'c'`. */
  lemma {:induction false} NoCInFrontKeepsAbsent(a: string, x: string, w: string)
    requires 'c' !in a
    requires |w| > 0 && w[0] == 'c'
    requires !Contains(x, w)
    ensures !Contains(a + x, w)
    decreases |a|
  {
    if |a| > 0 {
      assert (a + x)[0] == a[0];
      assert !IsPrefix(w, a + x);
      assert 'c' !in a[1..] by {
        forall k | 0 <= k < |a[1..]| ensures a[1..][k] != 'c' {
          assert a[1..][k] == a[k + 1];
        }
      }
      NoCInFrontKeepsAbsent(a[1..], x, w);
      assert (a + x)[1..] == a[1..] + x;
    } else {
      assert a + x == x;
    }
  }

  /** Rewriting the web client tag to the embedded-player tag leaves no web
      client tag behind, whatever the input. */
  lemma {:induction false} RewriteLeavesNoWebClient(s: string)
    ensures !Contains(Replace(s, WebClient, EmbeddedClient), WebClient)
    decreases |s|
  {
    var r := Replace(s, WebClient, EmbeddedClient);
    if IsPrefix(WebClient, s) {
      var x := Replace(s[|WebClient|..], WebClient, EmbeddedClient);
      RewriteLeavesNoWebClient(s[|WebClient|..]);
      assert r == EmbeddedClient + x;
      var tail := EmbeddedClient[1..];
      assert tail == "=ANDROID_EMBEDDED_PLAYER";
      assert EmbeddedClient[2] == 'A';
      NoCInFrontKeepsAbsent(tail, x, WebClient);
      assert r[1..] == tail + x;
      assert r[2] == EmbeddedClient[2];
      assert !IsPrefix(WebClient, r);
    } else if |s| == 0 {
      assert r == [];
    } else {
      var y := Replace(s[1..], WebClient, EmbeddedClient);
      RewriteLeavesNoWebClient(s[1..]);
      assert r == [s[0]] + y;
      assert r[1..] == y;
      if s[0] == 'c' {
        var p := "=WEB";
        assert p == WebClient[1..];
        assert !IsPrefix(p, s[1..]);
        assert IsPrefix(WebClient, r) ==> IsPrefix(p, y) by {
          if IsPrefix(WebClient, r) {
            assert y[..|p|] == r[1..|WebClient|];
          }
        }
        RewritePreservesPrefixWithoutC(p, s[1..]);
      } else {
        assert r[0] == s[0] != WebClient[0];
      }
      assert !IsPrefix(WebClient, r);
    }
  }
}
